=== FILE: README.md ===
# OEMB Studio chat core, modelled in Dafny

OEMB Studio is a web app for writing automotive video content. A user chats
with an AI assistant inside a project, and picks one of eight content
*modules* ("Guiones", "Black Box", "SEO", ...); each module gives the
assistant its own system prompt. This project models the logic behind that
chat and proves properties of it:

- **`ChatRelay`** (`relay.dfy`) models the `chat` edge function:
  - it answers CORS pre-flight requests and checks that the gateway
    credential is configured;
  - it resolves the requested module to its system prompt, falling back to
    the orchestrator's;
  - it forwards the conversation to the AI gateway with streaming on;
  - it maps the gateway's reply to the response the browser gets.

  The parsed request body, the credential and the gateway's reply are
  inputs. The request the relay would send upstream is part of its result.
- **`Studio`** (`studio.dfy`) models the studio page's chat:
  - the guard of `sendMessage` and its optimistic user turn;
  - the history of at most twenty turns sent to the relay;
  - `upsertAssistant`, which folds streamed deltas into one growing
    assistant turn;
  - the writes of `onDone`, and the reset of the loading flag on both
    completion and failure.

  The page's state is the class `StudioSession`, whose methods are the
  callbacks. Database writes are kept in an effect log.
- **`ModuleRegistry`** (`modules.dfy`) models the closed set of module ids,
  the `MODULES` table and `getModule`.
- **`Dashboard`** (`dashboard.dfy`) models the dashboard helpers:
  - the "how long ago" labels of `formatDate`;
  - the blank-name guard of `createProject`;
  - the zero defaults of `loadStats`.
- **`Prelude`** (`prelude.dfy`) holds the JavaScript behaviour the above
  relies on:
  - `undefined`/`null` as `Option`;
  - `String.prototype.trim` with the ECMAScript whitespace set;
  - the decimal rendering of an integer in a template literal.

Behaviour worth knowing, as the code has it:

- A failed send does not roll back the transcript. The `catch`
  (src/pages/Studio.tsx:112-115) only clears `isLoading` and shows a toast.
  The optimistic user turn stays, and so does any partly streamed assistant
  turn. `StudioSession.OnError` changes nothing but the flag.
- The pre-flight answer has the default status 200
  (`new Response(null, { headers })`).
- JavaScript truthiness is modelled as written:
  - an empty `LOVABLE_API_KEY` counts as missing;
  - an empty `projectId` fails the send guard;
  - a turn whose `id` is the empty string counts as having no id;
  - an empty prompt entry would fall back to the orchestrator prompt.

## Model

| member | source | states |
|---|---|---|
| Prelude.Trim | src/pages/Studio.tsx:58 | `trim()` leaves a result that neither starts nor ends with ECMAScript whitespace and is no longer than its input |
| Prelude.TrimKeepsMiddle | src/pages/Studio.tsx:60 | `trim()` removes only whitespace, and only from the two ends: the result is the contiguous middle from the first to the last non-whitespace character |
| Prelude.TrimEmptyIffBlank | src/pages/Index.tsx:62 | `!s.trim()` holds exactly when `s` consists of whitespace only (both directions) |
| Prelude.Decimal | src/pages/Index.tsx:83 | `${n}` renders digits only, whose decimal value is `n`; it starts with '0' only for 0, and then it is exactly "0" |
| ModuleRegistry.Parse | src/lib/modules.ts:1 | a string is read as a module id only when it is exactly that id's literal |
| ModuleRegistry.ParseKey | src/lib/modules.ts:1 | every id's literal reads back as that id, so the eight literals are distinct |
| ModuleRegistry.ModuleIds | src/lib/modules.ts:11-68 | `MODULES` has eight entries, and lists the ids in their display order |
| ModuleRegistry.ModulesWellFormed | src/lib/modules.ts:11-68 | `MODULES` has exactly eight entries with pairwise distinct ids, and every id of the union has an entry |
| ModuleRegistry.Find | src/lib/modules.ts:70 | `find` returns an entry of the table carrying the id, namely the first one; it finds nothing exactly when no entry carries the id |
| ModuleRegistry.FindUnique | src/lib/modules.ts:70 | with distinct ids, the first match is exactly the one entry carrying the id (both directions) |
| ModuleRegistry.FindTotal | src/lib/modules.ts:70 | with distinct ids and an entry for the id, the search succeeds and every entry with that id is the one found |
| ModuleRegistry.GetModule | src/lib/modules.ts:70 | the `!` never fails: for every id the result is an entry of `MODULES` with that id, and the only one |
| ChatRelay.SystemPrompt | supabase/functions/chat/index.ts:221 | the prompt lookup with its orchestrator fallback always gives one of the table's prompts and never empty; which one is stated by SystemPromptResolution and FallbackOnlyOutsideTable |
| ChatRelay.SystemPromptResolution | supabase/functions/chat/index.ts:200-221 | the prompt table's keys are exactly the module literals; a module literal selects its own module's prompt, and any other string selects the orchestrator prompt |
| ChatRelay.EveryModuleHasItsPrompt | supabase/functions/chat/index.ts:200-209 | every registry id is a key of the prompt table and selects its own prompt; different modules get different prompts |
| ChatRelay.FallbackOnlyOutsideTable | supabase/functions/chat/index.ts:221 | the orchestrator prompt is chosen exactly for "orchestrator" and for strings outside the table (both directions) |
| ChatRelay.RequestedModule | supabase/functions/chat/index.ts:217 | the destructuring default: a body without `module` asks for "orchestrator", otherwise for the module it names; ForwardedConversation shows the two are served alike |
| ChatRelay.Outbound | supabase/functions/chat/index.ts:223-237 | the upstream request is the system turn followed by the caller's turns in order and unmodified (length + 1), with streaming on, the gateway URL and the model |
| ChatRelay.Handle | supabase/functions/chat/index.ts:211-269 | every response carries the CORS headers, and its status is 200, 402, 429 or 500; the gateway is contacted exactly when the request is not a pre-flight, the body parsed and the key is configured, and then the forwarded request is `Outbound` of the body and key and the response is the mapping of the gateway's reply; a body `req.json()` cannot parse gets the `catch`'s 500 with the error's message, and nothing is forwarded |
| ChatRelay.PreflightFirst | supabase/functions/chat/index.ts:212-214 | an OPTIONS request gets 200, the CORS headers and no body, whatever the body and the credential are; nothing is forwarded |
| ChatRelay.MissingKeyFailsFast | supabase/functions/chat/index.ts:218-219 | an unset or empty key gives 500 with "LOVABLE_API_KEY is not configured", and nothing is forwarded |
| ChatRelay.ForwardedConversation | supabase/functions/chat/index.ts:217-237 | with a key, the forwarded messages are the resolved system turn followed by the caller's turns, with streaming and the `Bearer` key; a body without `module` is handled exactly as one naming "orchestrator" |
| ChatRelay.MapReply | supabase/functions/chat/index.ts:239-268 | the reply's mapping carries the CORS headers, has status 200, 402, 429 or 500, and is 200 with an event stream exactly when the gateway answered 2xx; a failed `fetch` gets the `catch`'s 500 with the error's message; GatewayErrorMapping and GatewaySuccessPassthrough give the other cases |
| ChatRelay.GatewayErrorMapping | supabase/functions/chat/index.ts:239-258 | a non-2xx reply gives 429 or 402 when the gateway said so, and otherwise 500; each comes with its fixed message as JSON, so the gateway's error body never reaches the browser |
| ChatRelay.GatewaySuccessPassthrough | supabase/functions/chat/index.ts:260-262 | a 2xx reply's body is passed through unchanged as `text/event-stream`, with the default status 200 |
| Studio.Upsert | src/pages/Studio.tsx:77-83 | the `setMessages` updater keeps the length when the last turn is in flight and adds one turn otherwise, and always ends in an in-flight turn holding `assistantSoFar`; UpsertChangesOnlyTheEnd states the rest |
| Studio.UpsertChangesOnlyTheEnd | src/pages/Studio.tsx:77-83 | one delta changes only the end of the transcript. An in-flight last turn takes the new text, keeping its length and other fields. Otherwise one assistant turn with the text and module is appended. All earlier turns stay the same |
| Studio.ConcatSnoc | src/pages/Studio.tsx:76 | `assistantSoFar += chunk` extends the join of the deltas by the new delta |
| Studio.Reconcile | src/pages/Studio.tsx:74-84 | after at least one delta the transcript ends in an in-flight turn holding the deltas joined in order; ChunkingInvariance gives the whole transcript |
| Studio.ChunkingInvariance | src/pages/Studio.tsx:74-83 | from a transcript not ending in flight, any K >= 1 deltas leave exactly one new assistant turn, holding their concatenation |
| Studio.StreamedIsFolded | src/pages/Studio.tsx:74-84 | the transcript a send keeps while streaming (its starting transcript, plus one in-flight assistant turn with the joined text once a delta arrived) is exactly the deltas folded in by `upsertAssistant` |
| Studio.SameTextSameTranscript | src/pages/Studio.tsx:74-83 | two ways of cutting the same text into deltas give the same transcript |
| Studio.WireAll | src/pages/Studio.tsx:89 | `.map` reduces each turn, in order, to its role and content |
| Studio.ChatHistory | src/pages/Studio.tsx:87-89 | the history is the last min(20, n) turns of the snapshot, in their original order, reduced to role and content |
| Studio.Outgoing | src/pages/Studio.tsx:87-92 | the messages sent are the history followed by the new user message: between 1 and 21 of them |
| Studio.RelayForwardsOutgoing | src/pages/Studio.tsx:91-95 | given what the page sends, the relay forwards the module's own prompt followed by those messages, at most 22 turns |
| Studio.StoredModule | src/pages/Studio.tsx:71 | the stored `module` column is null exactly for the orchestrator; otherwise it is the id's literal, which reads back as that id |
| Studio.CanSend | src/pages/Studio.tsx:58 | the negation of the early-return condition of `sendMessage`; SendGuard states it without `trim` |
| Studio.SendGuard | src/pages/Studio.tsx:58 | a send may start exactly when the input is not all whitespace, no send is in progress, a user is signed in and a project id is set |
| Studio.CompletionEffects | src/pages/Studio.tsx:96-110 | on completion, an assistant row is inserted exactly when the text is non-empty, with that text and the stored module; the project is then touched |
| Studio.BlackBoxTitleScenario | src/pages/Studio.tsx:74-107 | three deltas on a `black_box` send end in one assistant turn with the joined title and exactly one assistant insert with module "black_box" |
| Studio.StudioSession.constructor | src/pages/Studio.tsx:23-26 | the page starts with the loaded turns, an empty input, the orchestrator selected and no send in progress |
| Studio.StudioSession.SetInput | src/pages/Studio.tsx:24 | typing replaces the input and keeps the session invariant |
| Studio.StudioSession.SelectModule | src/pages/Studio.tsx:25 | choosing a module replaces the selection; a send in progress keeps the module it captured |
| Studio.StudioSession.SendMessage | src/pages/Studio.tsx:57-92 | nothing changes unless the guard passes. Otherwise the trimmed text is appended as a user turn, the input is cleared and loading is set. The user row is recorded with the stored module, and the relay receives the history of the transcript as it was before the user turn |
| Studio.StudioSession.StartSend | src/pages/Studio.tsx:60-74 | the optimistic update: user turn appended, input cleared, loading set, user row recorded, accumulator empty, and the send's module, project and user captured |
| Studio.StudioSession.OnDelta | src/pages/Studio.tsx:75-84 | the accumulator is the join of all deltas so far. The transcript is the one the send started from plus one in-flight assistant turn holding exactly that text |
| Studio.StudioSession.OnDone | src/pages/Studio.tsx:96-110 | loading stops. The completion writes are recorded, with an assistant insert only when text arrived. The transcript is not touched, so no turn gets an id |
| Studio.StudioSession.OnError | src/pages/Studio.tsx:112-115 | loading stops on failure, and nothing is written |
| Dashboard.AgeOf | src/pages/Index.tsx:80-86 | the four buckets are exhaustive and exclusive: under an hour (negative differences included), 1..23 hours, 1..6 days, a week or more. Each count is the floor of the elapsed time in its unit |
| Dashboard.AgeMonotone | src/pages/Index.tsx:77-87 | a larger difference never gets a finer bucket, and within the hour and day buckets its count never decreases |
| Dashboard.FormatDate | src/pages/Index.tsx:77-87 | the label is "Hace unos minutos" under an hour, or "Hace {n}h" / "Hace {n}d" whose digits, with no leading zero, spell the bucket's count, or else the locale date |
| Dashboard.Counted | src/pages/Index.tsx:83-85 | `Hace ${n}h` and `Hace ${n}d` are "Hace ", the decimal digits of `n` with no leading zero, and the unit letter |
| Dashboard.CreateProject | src/pages/Index.tsx:61-66 | nothing is inserted exactly when the name is all whitespace or no user is signed in. Otherwise the inserted name is the trimmed, non-empty name, for that user |
| Dashboard.CountOrZero | src/pages/Index.tsx:55 | a missing count reads as zero: the count when there is one, 0 when it is null |
| Dashboard.LoadStats | src/pages/Index.tsx:54-58 | each of the three counters is its query's count, or 0 when that count is null |

## Left out

- Network and database I/O is not performed:
  - `serve`, `req.json()`, `Deno.env`, the `fetch` to the gateway and the Supabase calls are abstracted;
  - the parsed body, the credential and the gateway's reply are inputs of `ChatRelay.Handle`;
  - the page's writes are entries of an effect log.
- Failures of the page's Supabase writes are not modelled. The client returns them as values, and the page ignores them.
- The server-side logging (`console.error`, and reading the gateway's error body for it) is left out.
- The relay's `catch` (supabase/functions/chat/index.ts:263-268) is modelled for the two throws that reach it, a failed `req.json()` and a failed `fetch`; both throw `Error` objects, whose message is an input. Its "Unknown error" branch, for a thrown value that is not an `Error`, is not modelled.
- The stream consumer `streamChat` (src/lib/streamChat.ts) is not part of this model. Its deltas are the arguments of `StudioSession.OnDelta`, and its completion and failure are `OnDone` and `OnError`.
- The eight system prompts are long persona texts with no effect on the logic. They are distinct placeholder constants.
- `ChatRelay.SystemPrompt`: the prompt table is a closed map. JavaScript's inherited keys (`MODULE_PROMPTS["toString"]`) are not modelled.
- `ChatRelay.RequestBody`: `module` is always a string when present, and `messages` is always a sequence of `{role, content}` turns:
  - a `module` that is not a string (`null`, `5`, `["seo"]`) is looked up under its string form (supabase/functions/chat/index.ts:221). `"null"` and `"5"` fall back to the orchestrator prompt, and `["seo"]` selects the SEO prompt. The model does not represent such bodies;
  - a `messages` that cannot be spread fails at supabase/functions/chat/index.ts:233, after the credential check at line 219, so with the key missing the answer is still the missing-key 500. The model does not represent such bodies; its `Unparsable` body stands only for a `req.json()` that fails, before the key is read;
  - each turn is reduced to `role` and `content`. The source forwards the caller's objects verbatim, extra fields included.
- React's asynchronous state updates and batching are not modelled:
  - the history is taken from the snapshot of `messages` before the user turn is appended, as the callback's closure sees it;
  - the callbacks are assumed to run one at a time, in order.
- The `role` filter of the history keeps every turn, because a turn's role is always "user" or "assistant". The model has no filter step.
- The timestamp written by `onDone` is not modelled. `TouchProject` records only which project is updated.
- The id returned by the user-row insert is unused by the page and is not modelled.
- Loading a project's turns (src/pages/Studio.tsx:32-50) is the constructor's `loaded` argument. The other page functions are not modelled: `handleSaveOutput`, `loadProjects`, project deletion and navigation. Auth.tsx, App.tsx and the React components are UI only and are not modelled either.
- `Dashboard.FormatDate`: the clock and the locale are inputs, namely the elapsed milliseconds and the text `toLocaleDateString('es')` would give. The hour count is exact integer floor division. Floating-point rounding of `diff / 3600000` is not modelled; it matters only for differences beyond about 2^53 ms.
- `Dashboard.CreateProject`: only the guard and the inserted row are modelled. The insert's error toast, closing the dialog and navigating to the new studio are left out.

=== FILE: dashboard.dfy ===
/**
 * The logic of the dashboard page: how long ago a project was updated
 * (`formatDate`), the guard of `createProject`, and the defaulting of the
 * three counters `loadStats` shows.
 *
 * The clock and the locale are inputs: `formatDate` receives the elapsed
 * milliseconds `now - date` and the text `toLocaleDateString` would give.
 */
module Dashboard {
  import opened Prelude

  const MsPerHour: int := 3600000
  const HoursPerDay: int := 24
  const MsPerDay: int := HoursPerDay * MsPerHour
  const DaysPerWeek: int := 7

  /** Which of `formatDate`'s four answers applies. */
  datatype Age = FewMinutes | HoursAgo(hours: int) | DaysAgo(days: int) | OnDate

  /**
   * `hours = Math.floor(diff / 3600000)`, then the first of: under one hour,
   * under a day, under a week, anything older. Dafny's `/` with a positive
   * divisor floors, negative `diff` (a date in the future) included.
   */
  function AgeOf(diff: int): (a: Age)
    ensures a.FewMinutes? <==> diff < MsPerHour
    ensures a.HoursAgo? <==> MsPerHour <= diff < MsPerDay
    ensures a.DaysAgo? <==> MsPerDay <= diff < DaysPerWeek * MsPerDay
    ensures a.OnDate? <==> DaysPerWeek * MsPerDay <= diff
    ensures a.HoursAgo? ==> 1 <= a.hours < HoursPerDay
                            && a.hours * MsPerHour <= diff < (a.hours + 1) * MsPerHour
    ensures a.DaysAgo? ==> 1 <= a.days < DaysPerWeek
                           && a.days * MsPerDay <= diff < (a.days + 1) * MsPerDay
  {
    var hours := diff / MsPerHour;
    if hours < 1 then FewMinutes
    else if hours < HoursPerDay then HoursAgo(hours)
    else
      var days := hours / HoursPerDay;
      if days < DaysPerWeek then DaysAgo(days) else OnDate
  }

  /** Coarseness of an answer: minutes, then hours, then days, then a date. */
  function Rank(a: Age): nat
  {
    match a
    case FewMinutes => 0
    case HoursAgo(_) => 1
    case DaysAgo(_) => 2
    case OnDate => 3
  }

  /**
   * An older date never gets a finer answer, and within the hour and day
   * answers the count never decreases.
   */
  lemma AgeMonotone(d1: int, d2: int)
    requires d1 <= d2
    ensures Rank(AgeOf(d1)) <= Rank(AgeOf(d2))
    ensures AgeOf(d1).HoursAgo? && AgeOf(d2).HoursAgo? ==> AgeOf(d1).hours <= AgeOf(d2).hours
    ensures AgeOf(d1).DaysAgo? && AgeOf(d2).DaysAgo? ==> AgeOf(d1).days <= AgeOf(d2).days
  {
  }

  /**
   * `formatDate`: "Hace unos minutos", "Hace {hours}h", "Hace {days}d", or the
   * locale's rendering of the date. The number shown is the bucket's count.
   */
  function FormatDate(diff: int, localeDate: string): (r: string)
    ensures AgeOf(diff).FewMinutes? ==> r == "Hace unos minutos"
    ensures AgeOf(diff).OnDate? ==> r == localeDate
    ensures AgeOf(diff).HoursAgo? || AgeOf(diff).DaysAgo? ==>
              && |r| >= 7 && r[..5] == "Hace "
              && r[|r| - 1] == (if AgeOf(diff).HoursAgo? then 'h' else 'd')
              && (forall k :: 5 <= k < |r| - 1 ==> '0' <= r[k] <= '9')
              && r[5] != '0'
              && DigitsValue(r[5..|r| - 1])
                 == (if AgeOf(diff).HoursAgo? then AgeOf(diff).hours else AgeOf(diff).days)
  {
    match AgeOf(diff)
    case FewMinutes => "Hace unos minutos"
    case HoursAgo(h) => Counted(h, 'h')
    case DaysAgo(d) => Counted(d, 'd')
    case OnDate => localeDate
  }

  /** `Hace ${n}` followed by the unit letter: the digits of `n` as a template literal renders them. */
  function Counted(n: nat, unit: char): (r: string)
    ensures |r| >= 7 && r[..5] == "Hace " && r[|r| - 1] == unit
    ensures forall k :: 5 <= k < |r| - 1 ==> '0' <= r[k] <= '9'
    ensures r[5] == '0' ==> n == 0 && |r| == 7
    ensures var d := r[5..|r| - 1];
            (forall k :: 0 <= k < |d| ==> '0' <= d[k] <= '9') && DigitsValue(d) == n
  {
    var digits := Decimal(n);
    var r := "Hace " + digits + [unit];
    assert r[5..|r| - 1] == digits;
    r
  }

  /** The row `createProject` inserts. */
  datatype ProjectInsert = ProjectInsert(name: string, userId: string)

  /**
   * `createProject`'s guard and insert: nothing is inserted for a blank name
   * or a signed-out user; otherwise the trimmed name is inserted for the user.
   */
  function CreateProject(newName: string, user: Option<string>): (r: Option<ProjectInsert>)
    ensures r.None? <==> AllWhitespace(newName) || user.None?
    ensures r.Some? ==> r.value == ProjectInsert(Trim(newName), user.value) && r.value.name != ""
  {
    TrimEmptyIffBlank(newName);
    if Trim(newName) == "" || user.None? then None
    else Some(ProjectInsert(Trim(newName), user.value))
  }

  /** The dashboard's counters. */
  datatype Stats = Stats(projects: nat, messages: nat, outputs: nat)

  /** `count || 0`: a missing count reads as zero. */
  function CountOrZero(count: Option<nat>): (n: nat)
    ensures count.Some? ==> n == count.value
    ensures count.None? ==> n == 0
  {
    if count.Some? then count.value else 0
  }

  /** `loadStats`: each counter is its query's count, or 0 when the count is null. */
  function LoadStats(p: Option<nat>, m: Option<nat>, o: Option<nat>): (s: Stats)
    ensures s.projects == (if p.Some? then p.value else 0)
    ensures s.messages == (if m.Some? then m.value else 0)
    ensures s.outputs == (if o.Some? then o.value else 0)
  {
    Stats(CountOrZero(p), CountOrZero(m), CountOrZero(o))
  }
}

=== FILE: modules.dfy ===
/**
 * The registry of the studio's eight content modules: the closed `ModuleId`
 * union, the `MODULES` table that describes each module, and `getModule`,
 * which finds a module's descriptor by id.
 */
module ModuleRegistry {
  import opened Prelude

  /** The closed set of module identifiers. */
  datatype ModuleId =
    | Orchestrator | Guiones | Conceptos | Thumbnails
    | CopyVault | BlackBox | Analitica | Seo

  /** The string literal that stands for each identifier in the union. */
  function Key(id: ModuleId): string
  {
    match id
    case Orchestrator => "orchestrator"
    case Guiones => "guiones"
    case Conceptos => "conceptos"
    case Thumbnails => "thumbnails"
    case CopyVault => "copy_vault"
    case BlackBox => "black_box"
    case Analitica => "analitica"
    case Seo => "seo"
  }

  /** The member of the union a string denotes, if any. */
  function Parse(s: string): (r: Option<ModuleId>)
    ensures r.Some? ==> Key(r.value) == s
  {
    if s == "orchestrator" then Some(Orchestrator)
    else if s == "guiones" then Some(Guiones)
    else if s == "conceptos" then Some(Conceptos)
    else if s == "thumbnails" then Some(Thumbnails)
    else if s == "copy_vault" then Some(CopyVault)
    else if s == "black_box" then Some(BlackBox)
    else if s == "analitica" then Some(Analitica)
    else if s == "seo" then Some(Seo)
    else None
  }

  /** Every identifier's literal is recognised as that identifier, so distinct ids have distinct literals. */
  lemma ParseKey(id: ModuleId)
    ensures Parse(Key(id)) == Some(id)
  {
  }

  /** The descriptor the interface shows for a module. */
  datatype ModuleInfo = ModuleInfo(
    id: ModuleId,
    name: string,
    icon: string,
    description: string,
    shortDescription: string)

  /** The `MODULES` table, in display order. */
  const Modules: seq<ModuleInfo> := [
    ModuleInfo(Orchestrator, "OEMB Studio", "🧠",
      "Orquestador inteligente que detecta automáticamente qué módulo usar según tu mensaje",
      "Auto-detecta el módulo"),
    ModuleInfo(Guiones, "Guiones", "🎬",
      "Genetic Storytelling Engine - Generación de narrativas automotrices con alma técnica",
      "Narrativas y storytelling"),
    ModuleInfo(Conceptos, "Conceptos", "💡",
      "Generador de Núcleo Conceptual - ADN estratégico, emocional y técnico",
      "Núcleo conceptual"),
    ModuleInfo(Thumbnails, "Thumbnails", "🖼️",
      "Compilador visual + Análisis forense pixel-perfect + Forensis tipográfica",
      "Visual y análisis"),
    ModuleInfo(CopyVault, "Copy Vault", "✍️",
      "Banco de 10,000+ títulos y copys automotrices con patrones virales probados",
      "Banco de títulos"),
    ModuleInfo(BlackBox, "Black Box", "🎯",
      "Generador de títulos outlier (15x+ promedio) con triggers psicológicos",
      "Títulos outlier virales"),
    ModuleInfo(Analitica, "Analítica", "📊",
      "Motor forense post-publicación - Secuenciador genético de patrones virales",
      "Análisis post-publicación"),
    ModuleInfo(Seo, "SEO", "🔍",
      "Arquitecto de descripciones, tags y timestamps para máximo tráfico orgánico",
      "SEO y descripciones")
  ]

  /** No two entries of `table` share an id. */
  predicate DistinctIds(table: seq<ModuleInfo>)
  {
    forall i, j :: 0 <= i < j < |table| ==> table[i].id != table[j].id
  }

  /** Some entry of `table` carries `id`. */
  predicate Covers(table: seq<ModuleInfo>, id: ModuleId)
  {
    exists i :: 0 <= i < |table| && table[i].id == id
  }

  /** The ids of `Modules`, position by position. */
  lemma ModuleIds()
    ensures |Modules| == 8
    ensures Modules[0].id == Orchestrator && Modules[1].id == Guiones
    ensures Modules[2].id == Conceptos && Modules[3].id == Thumbnails
    ensures Modules[4].id == CopyVault && Modules[5].id == BlackBox
    ensures Modules[6].id == Analitica && Modules[7].id == Seo
  {
  }

  /** The table has exactly eight entries, their ids are pairwise distinct, and every id has an entry. */
  lemma ModulesWellFormed()
    ensures |Modules| == 8
    ensures DistinctIds(Modules)
    ensures forall id: ModuleId :: Covers(Modules, id)
  {
    ModuleIds();
    forall id: ModuleId ensures Covers(Modules, id) {
      var i := match id
        case Orchestrator => 0 case Guiones => 1 case Conceptos => 2 case Thumbnails => 3
        case CopyVault => 4 case BlackBox => 5 case Analitica => 6 case Seo => 7;
      assert Modules[i].id == id;
    }
  }

  /** `table.find(m => m.id === id)`: the first entry with that id, or none. */
  function Find(table: seq<ModuleInfo>, id: ModuleId): (r: Option<ModuleInfo>)
    ensures r.Some? ==> r.value in table && r.value.id == id
    ensures r.None? <==> forall i :: 0 <= i < |table| ==> table[i].id != id
    ensures r.Some? ==> exists i :: 0 <= i < |table| && table[i] == r.value
                                 && forall k :: 0 <= k < i ==> table[k].id != id
  {
    if table == [] then None
    else if table[0].id == id then Some(table[0])
    else
      var r := Find(table[1..], id);
      if r.Some? then
        var i :| 0 <= i < |table[1..]| && table[1..][i] == r.value
                 && forall k :: 0 <= k < i ==> table[1..][k].id != id;
        assert table[i + 1] == r.value;
        r
      else
        r
  }

  /** In a table with distinct ids, the first match is the one entry carrying that id. */
  lemma FindUnique(table: seq<ModuleInfo>, id: ModuleId, e: ModuleInfo)
    requires DistinctIds(table)
    ensures Find(table, id) == Some(e) <==> (e in table && e.id == id)
  {
    if e in table && e.id == id {
      var r := Find(table, id);
      var j :| 0 <= j < |table| && table[j] == e;
      assert r.Some?;
      var i :| 0 <= i < |table| && table[i] == r.value
               && forall k :: 0 <= k < i ==> table[k].id != id;
    }
  }

  /** In a table with distinct ids that covers `id`, the search succeeds and finds the one entry carrying `id`. */
  lemma FindTotal(table: seq<ModuleInfo>, id: ModuleId)
    requires DistinctIds(table) && Covers(table, id)
    ensures Find(table, id).Some?
    ensures forall e :: e in table && e.id == id ==> e == Find(table, id).value
  {
    forall e | e in table && e.id == id ensures e == Find(table, id).value {
      FindUnique(table, id, e);
    }
  }

  /**
   * `getModule(id)`: the `!` assertion never fails, because every id has an
   * entry, and the entry found is the only one with that id.
   */
  function GetModule(id: ModuleId): (m: ModuleInfo)
    ensures m in Modules && m.id == id
    ensures forall e :: e in Modules && e.id == id ==> e == m
  {
    ModulesWellFormed();
    FindTotal(Modules, id);
    Find(Modules, id).value
  }
}

=== FILE: prelude.dfy ===
/**
 * The small part of the JavaScript runtime that the application's logic
 * relies on: optional values (`undefined`/`null`), `String.prototype.trim`,
 * and the decimal rendering of a non-negative integer in a template literal.
 */
module Prelude {

  /** A value that may be absent (`undefined` or `null` in the source). */
  datatype Option<+T> = None | Some(value: T)

  /**
   * The characters `String.prototype.trim` removes: the ECMAScript
   * WhiteSpace and LineTerminator code points.
   */
  predicate IsJsWhitespace(c: char)
  {
    var n := c as int;
    || 0x09 <= n <= 0x0D        // tab, line feed, vertical tab, form feed, carriage return
    || n == 0x20 || n == 0xA0   // space, no-break space
    || n == 0x1680
    || 0x2000 <= n <= 0x200A    // en quad .. hair space
    || n == 0x2028 || n == 0x2029 // line and paragraph separators
    || n == 0x202F || n == 0x205F || n == 0x3000
    || n == 0xFEFF              // byte order mark
  }

  /** True when every character of `s` is whitespace (vacuously for ""). */
  predicate AllWhitespace(s: string)
  {
    forall k :: 0 <= k < |s| ==> IsJsWhitespace(s[k])
  }

  /** The first position at or after `i` that does not hold whitespace, or `|s|`. */
  function SkipLeading(s: string, i: nat): (n: nat)
    requires i <= |s|
    ensures i <= n <= |s|
    ensures forall k :: i <= k < n ==> IsJsWhitespace(s[k])
    ensures n < |s| ==> !IsJsWhitespace(s[n])
    decreases |s| - i
  {
    if i < |s| && IsJsWhitespace(s[i]) then SkipLeading(s, i + 1) else i
  }

  /** Going back from `j`, no further than `lo`: the end of the last character that is not whitespace. */
  function SkipTrailing(s: string, lo: nat, j: nat): (n: nat)
    requires lo <= j <= |s|
    ensures lo <= n <= j
    ensures forall k :: n <= k < j ==> IsJsWhitespace(s[k])
    ensures n > lo ==> !IsJsWhitespace(s[n - 1])
    decreases j
  {
    if j > lo && IsJsWhitespace(s[j - 1]) then SkipTrailing(s, lo, j - 1) else j
  }

  /**
   * `s.trim()`: whitespace removed from both ends; the result neither starts
   * nor ends with whitespace. `TrimKeepsMiddle` shows that nothing else is
   * removed.
   */
  function Trim(s: string): (r: string)
    ensures |r| <= |s|
    ensures r == [] || (!IsJsWhitespace(r[0]) && !IsJsWhitespace(r[|r| - 1]))
  {
    var i := SkipLeading(s, 0);
    var j := SkipTrailing(s, i, |s|);
    s[i..j]
  }

  /**
   * The trimmed string is the contiguous middle `s[i..j]` of `s`: everything
   * before `i` and from `j` on is whitespace, and `s[i]` and `s[j - 1]` are
   * not, so `i` and `j` are the first and the last non-whitespace positions.
   */
  lemma TrimKeepsMiddle(s: string)
    ensures var i := SkipLeading(s, 0);
            var j := SkipTrailing(s, i, |s|);
            && 0 <= i <= j <= |s| && Trim(s) == s[i..j]
            && (forall k :: 0 <= k < i ==> IsJsWhitespace(s[k]))
            && (forall k :: j <= k < |s| ==> IsJsWhitespace(s[k]))
            && (i < j ==> !IsJsWhitespace(s[i]) && !IsJsWhitespace(s[j - 1]))
  {
    var i := SkipLeading(s, 0);
    var j := SkipTrailing(s, i, |s|);
    assert i < |s| ==> !IsJsWhitespace(s[i]);
    assert j > i ==> !IsJsWhitespace(s[j - 1]);
  }

  /** A string is blank for `!s.trim()` exactly when it is made only of whitespace. */
  lemma TrimEmptyIffBlank(s: string)
    ensures Trim(s) == [] <==> AllWhitespace(s)
  {
    TrimKeepsMiddle(s);
    var i := SkipLeading(s, 0);
    if Trim(s) != [] {
      assert s[i] == Trim(s)[0];
    }
  }

  /** The decimal digit for `d`. */
  function Digit(d: nat): (c: char)
    requires d < 10
    ensures '0' <= c <= '9' && c as int - '0' as int == d
  {
    ('0' as int + d) as char
  }

  /** The value of a string of decimal digits. */
  function DigitsValue(s: string): nat
    requires forall k :: 0 <= k < |s| ==> '0' <= s[k] <= '9'
  {
    if s == [] then 0
    else 10 * DigitsValue(s[..|s| - 1]) + (s[|s| - 1] as int - '0' as int)
  }

  /**
   * How a template literal renders a non-negative integer: its decimal
   * digits, most significant first, with no leading zero.
   */
  function Decimal(n: nat): (r: string)
    ensures |r| >= 1 && (forall k :: 0 <= k < |r| ==> '0' <= r[k] <= '9')
    ensures r[0] == '0' ==> n == 0 && |r| == 1
    ensures DigitsValue(r) == n
  {
    if n < 10 then
      var r := [Digit(n)];
      assert r[..0] == [];
      r
    else
      var p := Decimal(n / 10);
      var r := p + [Digit(n % 10)];
      assert r[..|r| - 1] == p;
      r
  }
}

=== FILE: relay.dfy ===
/**
 * The `chat` edge function: it answers CORS pre-flight requests, checks that
 * the gateway credential is configured, picks the system prompt of the
 * requested module, forwards the conversation to the AI gateway in streaming
 * mode and turns the gateway's reply into the response the browser receives.
 *
 * The handler's I/O is abstracted: the parsed request body, the value of the
 * `LOVABLE_API_KEY` environment variable and the gateway's reply are inputs,
 * and the request it would send to the gateway is part of its result.
 */
module ChatRelay {
  import opened Prelude
  import ModuleRegistry

  /** One `{role, content}` turn as it travels in JSON. */
  datatype WireMessage = WireMessage(role: string, content: string)

  // The eight system prompts. Their texts are long persona instructions that
  // play no part in the relay's logic; they stand here as distinct constants.
  const OrchestratorPrompt: string := "<ORCHESTRATOR_PROMPT>"
  const GuionesPrompt: string := "<GUIONES_PROMPT>"
  const ConceptosPrompt: string := "<CONCEPTOS_PROMPT>"
  const ThumbnailsPrompt: string := "<THUMBNAILS_PROMPT>"
  const CopyVaultPrompt: string := "<COPY_VAULT_PROMPT>"
  const BlackBoxPrompt: string := "<BLACK_BOX_PROMPT>"
  const AnaliticaPrompt: string := "<ANALITICA_PROMPT>"
  const SeoPrompt: string := "<SEO_PROMPT>"

  /** The key under which `MODULE_PROMPTS` holds the orchestrator's prompt. */
  const OrchestratorKey: string := "orchestrator"

  /** `MODULE_PROMPTS`: module key to system prompt. */
  const ModulePrompts: map<string, string> := map[
    OrchestratorKey := OrchestratorPrompt,
    "guiones" := GuionesPrompt,
    "conceptos" := ConceptosPrompt,
    "thumbnails" := ThumbnailsPrompt,
    "copy_vault" := CopyVaultPrompt,
    "black_box" := BlackBoxPrompt,
    "analitica" := AnaliticaPrompt,
    "seo" := SeoPrompt
  ]

  /** `MODULE_PROMPTS[module] || ORCHESTRATOR_PROMPT` (a missing or empty entry falls back). */
  function SystemPrompt(moduleName: string): (r: string)
    ensures r in ModulePrompts.Values && r != ""
  {
    assert ModulePrompts[OrchestratorKey] == OrchestratorPrompt;
    if moduleName in ModulePrompts && ModulePrompts[moduleName] != "" then ModulePrompts[moduleName]
    else OrchestratorPrompt
  }

  /** The prompt each module of the registry is meant to run with. */
  function PromptOf(id: ModuleRegistry.ModuleId): string
  {
    match id
    case Orchestrator => OrchestratorPrompt
    case Guiones => GuionesPrompt
    case Conceptos => ConceptosPrompt
    case Thumbnails => ThumbnailsPrompt
    case CopyVault => CopyVaultPrompt
    case BlackBox => BlackBoxPrompt
    case Analitica => AnaliticaPrompt
    case Seo => SeoPrompt
  }

  /**
   * The prompt table's keys are exactly the registry's module keys; each key
   * selects its own module's prompt, and every other string selects the
   * orchestrator's.
   */
  lemma SystemPromptResolution(moduleName: string)
    ensures moduleName in ModulePrompts <==> ModuleRegistry.Parse(moduleName).Some?
    ensures ModuleRegistry.Parse(moduleName).Some? ==>
              SystemPrompt(moduleName) == PromptOf(ModuleRegistry.Parse(moduleName).value)
    ensures ModuleRegistry.Parse(moduleName).None? ==> SystemPrompt(moduleName) == OrchestratorPrompt
  {
  }

  /** Every registry module has an entry; its prompt is its own, and different modules get different prompts. */
  lemma EveryModuleHasItsPrompt(a: ModuleRegistry.ModuleId, b: ModuleRegistry.ModuleId)
    ensures ModuleRegistry.Key(a) in ModulePrompts
    ensures SystemPrompt(ModuleRegistry.Key(a)) == PromptOf(a)
    ensures SystemPrompt(ModuleRegistry.Key(a)) == SystemPrompt(ModuleRegistry.Key(b)) ==> a == b
  {
    ModuleRegistry.ParseKey(a);
    ModuleRegistry.ParseKey(b);
    SystemPromptResolution(ModuleRegistry.Key(a));
    SystemPromptResolution(ModuleRegistry.Key(b));
  }

  /** The orchestrator prompt is chosen exactly for "orchestrator" and for strings outside the table. */
  lemma FallbackOnlyOutsideTable(moduleName: string)
    ensures SystemPrompt(moduleName) == OrchestratorPrompt <==>
              (moduleName == "orchestrator" || moduleName !in ModulePrompts)
  {
  }

  /** The CORS headers attached to every response. */
  const CorsHeaders: map<string, string> := map[
    "Access-Control-Allow-Origin" := "*",
    "Access-Control-Allow-Headers" :=
      "authorization, x-client-info, apikey, content-type, x-supabase-client-platform, "
      + "x-supabase-client-platform-version, x-supabase-client-runtime, x-supabase-client-runtime-version"
  ]

  const GatewayUrl: string := "https://ai.gateway.lovable.dev/v1/chat/completions"
  const GatewayModel: string := "google/gemini-3-flash-preview"
  const DefaultModule: string := "orchestrator"

  const MissingKeyError: string := "LOVABLE_API_KEY is not configured"
  const RateLimitError: string := "Rate limit exceeded"
  const PaymentError: string := "Payment required"
  const GatewayError: string := "AI gateway error"

  /** The JSON body after destructuring: `module` is absent when the body has none. */
  datatype RequestBody = RequestBody(messages: seq<WireMessage>, moduleName: Option<string>)

  /** `const { module = "orchestrator" } = body`: the requested module, defaulted. */
  function RequestedModule(body: RequestBody): (r: string)
    ensures body.moduleName.None? ==> r == DefaultModule
    ensures body.moduleName.Some? ==> r == body.moduleName.value
  {
    if body.moduleName.Some? then body.moduleName.value else DefaultModule
  }

  /** The outcome of `await req.json()`: a body, or the message of the error it throws. */
  datatype ParsedBody = Parsed(body: RequestBody) | Unparsable(message: string)

  datatype Request = Request(httpMethod: string, body: ParsedBody)

  /** The POST the relay makes to the gateway. */
  datatype GatewayRequest = GatewayRequest(
    url: string,
    authorization: string,
    model: string,
    messages: seq<WireMessage>,
    stream: bool)

  /** What the gateway answers: a status and body, or a failed `fetch` with its error message. */
  datatype GatewayReply = Reply(status: int, body: string) | FetchFailed(message: string)

  datatype ResponseBody = NoBody | ErrorJson(error: string) | EventStream(stream: string)

  datatype Response = Response(status: int, headers: map<string, string>, body: ResponseBody)

  /** One run of the handler: what it forwarded to the gateway, if anything, and what it answered. */
  datatype Exchange = Exchange(forwarded: Option<GatewayRequest>, response: Response)

  /** `response.ok`: a 2xx status. */
  predicate IsOk(status: int)
  {
    200 <= status <= 299
  }

  /** `!LOVABLE_API_KEY`: an unset variable and an empty one are both missing. */
  predicate KeyConfigured(apiKey: Option<string>)
  {
    apiKey.Some? && apiKey.value != ""
  }

  /** Every CORS header is present with its value. */
  predicate CarriesCors(headers: map<string, string>)
  {
    forall h :: h in CorsHeaders ==> h in headers && headers[h] == CorsHeaders[h]
  }

  function JsonHeaders(): map<string, string>
  {
    CorsHeaders["Content-Type" := "application/json"]
  }

  function ErrorResponse(status: int, error: string): Response
  {
    Response(status, JsonHeaders(), ErrorJson(error))
  }

  /** The request sent upstream: the system turn first, then the caller's turns as given. */
  function Outbound(body: RequestBody, apiKey: string): (g: GatewayRequest)
    ensures |g.messages| == |body.messages| + 1
    ensures g.messages[0] == WireMessage("system", SystemPrompt(RequestedModule(body)))
    ensures forall i :: 0 <= i < |body.messages| ==> g.messages[i + 1] == body.messages[i]
    ensures g.stream && g.url == GatewayUrl && g.model == GatewayModel
  {
    GatewayRequest(GatewayUrl, "Bearer " + apiKey, GatewayModel,
                   [WireMessage("system", SystemPrompt(RequestedModule(body)))] + body.messages, true)
  }

  /** How the gateway's reply becomes the relay's response. */
  function MapReply(reply: GatewayReply): (r: Response)
    ensures CarriesCors(r.headers)
    ensures r.status == 200 || r.status == 402 || r.status == 429 || r.status == 500
    ensures r.status == 200 <==> reply.Reply? && IsOk(reply.status)
    ensures r.body.EventStream? <==> reply.Reply? && IsOk(reply.status)
    ensures reply.FetchFailed? ==> r == ErrorResponse(500, reply.message)
  {
    match reply
    case FetchFailed(message) => ErrorResponse(500, message)
    case Reply(status, body) =>
      if !IsOk(status) then
        if status == 429 then ErrorResponse(429, RateLimitError)
        else if status == 402 then ErrorResponse(402, PaymentError)
        else ErrorResponse(500, GatewayError)
      else
        Response(200, CorsHeaders["Content-Type" := "text/event-stream"], EventStream(body))
  }

  /**
   * The `serve` handler. Pre-flight first; then the body, the credential, the
   * prompt, the gateway call and the mapping of its reply.
   */
  function Handle(req: Request, apiKey: Option<string>, reply: GatewayReply): (x: Exchange)
    ensures CarriesCors(x.response.headers)
    ensures x.response.status == 200 || x.response.status == 402
            || x.response.status == 429 || x.response.status == 500
    ensures x.forwarded.Some? <==>
              req.httpMethod != "OPTIONS" && req.body.Parsed? && KeyConfigured(apiKey)
    ensures x.forwarded.Some? ==>
              x.forwarded.value == Outbound(req.body.body, apiKey.value) && x.response == MapReply(reply)
    ensures req.httpMethod != "OPTIONS" && req.body.Unparsable? ==>
              x == Exchange(None, ErrorResponse(500, req.body.message))
  {
    if req.httpMethod == "OPTIONS" then
      Exchange(None, Response(200, CorsHeaders, NoBody))
    else
      match req.body
      case Unparsable(message) => Exchange(None, ErrorResponse(500, message))
      case Parsed(body) =>
        if !KeyConfigured(apiKey) then
          Exchange(None, ErrorResponse(500, MissingKeyError))
        else
          Exchange(Some(Outbound(body, apiKey.value)), MapReply(reply))
  }

  /** A pre-flight request is answered before the body or the credential is looked at. */
  lemma PreflightFirst(req: Request, apiKey: Option<string>, reply: GatewayReply)
    requires req.httpMethod == "OPTIONS"
    ensures Handle(req, apiKey, reply) == Exchange(None, Response(200, CorsHeaders, NoBody))
  {
  }

  /** Without a credential a parsed request fails with 500 and the gateway is not contacted. */
  lemma MissingKeyFailsFast(body: RequestBody, httpMethod: string, apiKey: Option<string>, reply: GatewayReply)
    requires httpMethod != "OPTIONS" && !KeyConfigured(apiKey)
    ensures Handle(Request(httpMethod, Parsed(body)), apiKey, reply)
              == Exchange(None, Response(500, JsonHeaders(), ErrorJson(MissingKeyError)))
  {
  }

  /**
   * The forwarded request carries the module's prompt as its first turn and
   * the caller's turns unchanged after it; a body without `module` is served
   * as if it named "orchestrator".
   */
  lemma ForwardedConversation(body: RequestBody, httpMethod: string, key: string, reply: GatewayReply)
    requires httpMethod != "OPTIONS" && key != ""
    ensures var x := Handle(Request(httpMethod, Parsed(body)), Some(key), reply);
            && x.forwarded.Some?
            && x.forwarded.value.messages
               == [WireMessage("system", SystemPrompt(RequestedModule(body)))] + body.messages
            && x.forwarded.value.stream
            && x.forwarded.value.authorization == "Bearer " + key
    ensures body.moduleName.None? ==>
              Handle(Request(httpMethod, Parsed(body)), Some(key), reply)
              == Handle(Request(httpMethod, Parsed(body.(moduleName := Some(DefaultModule)))), Some(key), reply)
  {
  }

  /**
   * A non-2xx gateway status becomes 429, 402 or 500 with a fixed message:
   * the gateway's own error body never reaches the browser.
   */
  lemma GatewayErrorMapping(status: int, upstreamBody: string)
    requires !IsOk(status)
    ensures var r := MapReply(Reply(status, upstreamBody));
            && r.status == (if status == 429 || status == 402 then status else 500)
            && r.body == ErrorJson(if status == 429 then RateLimitError
                                   else if status == 402 then PaymentError
                                   else GatewayError)
            && r.headers["Content-Type"] == "application/json"
  {
  }

  /** A 2xx gateway reply is passed through as an event stream with the default status 200. */
  lemma GatewaySuccessPassthrough(status: int, upstreamBody: string)
    requires IsOk(status)
    ensures var r := MapReply(Reply(status, upstreamBody));
            && r.status == 200 && r.body == EventStream(upstreamBody)
            && r.headers["Content-Type"] == "text/event-stream"
  {
  }
}

=== FILE: studio.dfy ===
/**
 * The chat side of the studio page: the transcript of turns, the guard and
 * optimistic update of `sendMessage`, the history sent to the relay, the
 * folding of streamed deltas into one growing assistant turn
 * (`upsertAssistant`), and what happens on completion (`onDone`) or failure.
 *
 * The pure parts are functions; the page's state (`messages`, `input`,
 * `module`, `isLoading`, the per-send `assistantSoFar` accumulator) lives in
 * the class `StudioSession`, whose methods are the callbacks. Database writes
 * are recorded in an effect log instead of being performed.
 */
module Studio {
  import opened Prelude
  import opened ModuleRegistry
  import ChatRelay

  datatype Role = User | Assistant

  /** A transcript turn (`Msg`); `id` is set only on turns loaded from the database. */
  datatype Msg = Msg(id: Option<string>, role: Role, content: string, moduleName: Option<string>)

  /** `m.id` is truthy: present and not the empty string. */
  predicate HasId(m: Msg)
  {
    m.id.Some? && m.id.value != ""
  }

  /** The assistant turn still being streamed: an assistant turn without an id. */
  predicate InFlight(m: Msg)
  {
    m.role == Assistant && !HasId(m)
  }

  /** The last turn of a non-empty transcript is in flight. */
  predicate EndsInFlight(msgs: seq<Msg>)
  {
    |msgs| > 0 && InFlight(msgs[|msgs| - 1])
  }

  function UserTurn(text: string): Msg
  {
    Msg(None, User, text, None)
  }

  function AssistantTurn(text: string, m: ModuleId): Msg
  {
    Msg(None, Assistant, text, Some(Key(m)))
  }

  /**
   * The state update of `upsertAssistant`: the in-flight turn, if it is last,
   * takes the accumulated text; otherwise a new assistant turn is appended.
   */
  function Upsert(prev: seq<Msg>, soFar: string, m: ModuleId): (r: seq<Msg>)
    ensures |r| == if EndsInFlight(prev) then |prev| else |prev| + 1
    ensures EndsInFlight(r) && r[|r| - 1].content == soFar
  {
    if EndsInFlight(prev) then
      var last := prev[|prev| - 1];
      prev[..|prev| - 1] + [last.(content := soFar)]
    else
      prev + [AssistantTurn(soFar, m)]
  }

  /**
   * One delta changes only the end of the transcript: either the last turn,
   * which was in flight, takes the new text and keeps its other fields, or
   * one assistant turn is appended. Every earlier turn is kept, and the
   * transcript ends with an in-flight turn holding exactly `soFar`.
   */
  lemma UpsertChangesOnlyTheEnd(prev: seq<Msg>, soFar: string, m: ModuleId)
    ensures var r := Upsert(prev, soFar, m);
            && (EndsInFlight(prev) ==> |r| == |prev| && r[|r| - 1] == prev[|prev| - 1].(content := soFar))
            && (!EndsInFlight(prev) ==> |r| == |prev| + 1 && r[|r| - 1] == AssistantTurn(soFar, m))
            && (forall i :: 0 <= i < |r| - 1 ==> r[i] == prev[i])
            && EndsInFlight(r) && r[|r| - 1].content == soFar
  {
  }

  /** `d1 + d2 + ... + dK`, the deltas joined in arrival order. */
  function Concat(ds: seq<string>): string
  {
    if ds == [] then "" else Concat(ds[..|ds| - 1]) + ds[|ds| - 1]
  }

  /** The transcript after `upsertAssistant` has run on each delta of `ds` in turn. */
  function Reconcile(base: seq<Msg>, ds: seq<string>, m: ModuleId): (r: seq<Msg>)
    ensures ds != [] ==> EndsInFlight(r) && r[|r| - 1].content == Concat(ds)
  {
    if ds == [] then base
    else Upsert(Reconcile(base, ds[..|ds| - 1], m), Concat(ds), m)
  }

  /** Joining is associative with appending one more delta. */
  lemma ConcatSnoc(ds: seq<string>, d: string)
    ensures Concat(ds + [d]) == Concat(ds) + d
  {
    assert (ds + [d])[..|ds|] == ds;
  }

  /**
   * Chunking invariance: from a transcript that does not end in flight (the
   * user turn just appended), any K >= 1 deltas leave exactly one new assistant
   * turn, whose content is their concatenation; how the text was cut into
   * deltas does not matter.
   */
  lemma {:induction false} ChunkingInvariance(base: seq<Msg>, ds: seq<string>, m: ModuleId)
    requires !EndsInFlight(base)
    requires |ds| >= 1
    ensures Reconcile(base, ds, m) == base + [AssistantTurn(Concat(ds), m)]
  {
    var init := ds[..|ds| - 1];
    if init == [] {
      assert Reconcile(base, init, m) == base;
    } else {
      ChunkingInvariance(base, init, m);
      var prev := base + [AssistantTurn(Concat(init), m)];
      assert Reconcile(base, init, m) == prev;
      assert EndsInFlight(prev) && prev[..|prev| - 1] == base;
      assert Upsert(prev, Concat(ds), m) == base + [AssistantTurn(Concat(ds), m)];
    }
  }

  /** Two delta sequences with the same concatenation produce the same transcript. */
  lemma SameTextSameTranscript(base: seq<Msg>, ds1: seq<string>, ds2: seq<string>, m: ModuleId)
    requires !EndsInFlight(base)
    requires |ds1| >= 1 && |ds2| >= 1 && Concat(ds1) == Concat(ds2)
    ensures Reconcile(base, ds1, m) == Reconcile(base, ds2, m)
  {
    ChunkingInvariance(base, ds1, m);
    ChunkingInvariance(base, ds2, m);
  }

  function RoleName(r: Role): string
  {
    match r
    case User => "user"
    case Assistant => "assistant"
  }

  /** `{ role, content }` of a turn: the id and module are dropped. */
  function ToWire(m: Msg): ChatRelay.WireMessage
  {
    ChatRelay.WireMessage(RoleName(m.role), m.content)
  }

  /** `.map(m => ({ role: m.role, content: m.content }))`, element by element. */
  function WireAll(s: seq<Msg>): (r: seq<ChatRelay.WireMessage>)
    ensures |r| == |s|
    ensures forall i :: 0 <= i < |s| ==> r[i] == ToWire(s[i])
  {
    if s == [] then [] else WireAll(s[..|s| - 1]) + [ToWire(s[|s| - 1])]
  }

  const HistoryLimit: nat := 20

  /**
   * `messages.filter(...).slice(-20).map(...)`: the most recent twenty turns
   * (all of them when there are fewer), in their original order, reduced to
   * role and content.
   */
  function ChatHistory(snapshot: seq<Msg>): (r: seq<ChatRelay.WireMessage>)
    ensures |r| == if |snapshot| < HistoryLimit then |snapshot| else HistoryLimit
    ensures forall i :: 0 <= i < |r| ==> r[i] == ToWire(snapshot[|snapshot| - |r| + i])
  {
    var start := if |snapshot| > HistoryLimit then |snapshot| - HistoryLimit else 0;
    WireAll(snapshot[start..])
  }

  /**
   * The `messages` passed to the relay: the history followed by the new user
   * message; never more than twenty-one turns.
   */
  function Outgoing(snapshot: seq<Msg>, text: string): (r: seq<ChatRelay.WireMessage>)
    ensures 1 <= |r| <= HistoryLimit + 1
    ensures r[|r| - 1] == ChatRelay.WireMessage("user", text)
    ensures r[..|r| - 1] == ChatHistory(snapshot)
  {
    var h := ChatHistory(snapshot);
    var r := h + [ChatRelay.WireMessage("user", text)];
    assert r[..|r| - 1] == h;
    r
  }

  /**
   * What the relay forwards for a send: its system turn, then the outgoing
   * history and message, so at most twenty-two turns reach the gateway.
   */
  lemma RelayForwardsOutgoing(snapshot: seq<Msg>, text: string, m: ModuleId, key: string, reply: ChatRelay.GatewayReply)
    requires key != ""
    ensures var x := ChatRelay.Handle(
              ChatRelay.Request("POST", ChatRelay.Parsed(ChatRelay.RequestBody(Outgoing(snapshot, text), Some(Key(m))))),
              Some(key), reply);
            && x.forwarded.Some?
            && |x.forwarded.value.messages| <= HistoryLimit + 2
            && x.forwarded.value.messages[0] == ChatRelay.WireMessage("system", ChatRelay.PromptOf(m))
            && x.forwarded.value.messages[1..] == Outgoing(snapshot, text)
  {
    ChatRelay.EveryModuleHasItsPrompt(m, m);
  }

  /** The `module` column: null for the orchestrator, the module's key otherwise. */
  function StoredModule(m: ModuleId): (r: Option<string>)
    ensures r.None? <==> m == Orchestrator
    ensures r.Some? ==> Parse(r.value) == Some(m)
  {
    if m == Orchestrator then None else Some(Key(m))
  }

  /** `!input.trim() || isLoading || !user || !projectId` is false. */
  predicate CanSend(input: string, isLoading: bool, user: Option<string>, projectId: Option<string>)
  {
    Trim(input) != "" && !isLoading && user.Some? && projectId.Some? && projectId.value != ""
  }

  /** The guard refuses a blank input, a send in progress, a signed-out user or a missing project. */
  lemma SendGuard(input: string, isLoading: bool, user: Option<string>, projectId: Option<string>)
    ensures CanSend(input, isLoading, user, projectId) <==>
              (!AllWhitespace(input) && !isLoading && user.Some? && projectId.Some? && projectId.value != "")
  {
    TrimEmptyIffBlank(input);
  }

  /** A `chat_messages` row as inserted. */
  datatype Row = Row(projectId: string, userId: string, role: Role, content: string, moduleName: Option<string>)

  /** The database writes the page makes. */
  datatype Effect = Insert(row: Row) | TouchProject(projectId: string)

  /**
   * The writes of `onDone`: the assistant row only when some text arrived,
   * then the project's timestamp update.
   */
  function CompletionEffects(soFar: string, projectId: string, userId: string, m: ModuleId): (e: seq<Effect>)
    ensures |e| == if soFar == "" then 1 else 2
    ensures e[|e| - 1] == TouchProject(projectId)
    ensures (exists i :: 0 <= i < |e| && e[i].Insert?) <==> soFar != ""
    ensures forall i :: 0 <= i < |e| && e[i].Insert? ==>
              e[i].row == Row(projectId, userId, Assistant, soFar, StoredModule(m))
  {
    var touch := [TouchProject(projectId)];
    if soFar != "" then
      var e := [Insert(Row(projectId, userId, Assistant, soFar, StoredModule(m)))] + touch;
      assert e[0].Insert?;
      e
    else touch
  }

  /** Three deltas join in order. */
  lemma ConcatThree(a: string, b: string, c: string)
    ensures Concat([a, b, c]) == a + b + c
  {
    assert [a][..0] == [];
    assert Concat([a]) == a;
    assert [a, b][..1] == [a];
    assert Concat([a, b]) == a + b;
    assert [a, b, c][..2] == [a, b];
  }

  /** The example's three deltas spell its title. */
  lemma TitleJoins()
    ensures "1. El " + "GT-R R34 " + "que humilló a un Ferrari" == "1. El GT-R R34 que humilló a un Ferrari"
  {
  }

  /**
   * The worked example: three deltas on a `black_box` conversation end in one
   * assistant turn with the joined text and exactly one assistant insert
   * carrying that text and module.
   */
  lemma BlackBoxTitleScenario(base: seq<Msg>, projectId: string, userId: string)
    requires !EndsInFlight(base)
    ensures var ds := ["1. El ", "GT-R R34 ", "que humilló a un Ferrari"];
            var text := "1. El GT-R R34 que humilló a un Ferrari";
            && Concat(ds) == text
            && Reconcile(base, ds, BlackBox) == base + [AssistantTurn(text, BlackBox)]
            && CompletionEffects(text, projectId, userId, BlackBox)
               == [Insert(Row(projectId, userId, Assistant, text, Some("black_box"))), TouchProject(projectId)]
  {
    var ds := ["1. El ", "GT-R R34 ", "que humilló a un Ferrari"];
    ConcatThree("1. El ", "GT-R R34 ", "que humilló a un Ferrari");
    TitleJoins();
    ChunkingInvariance(base, ds, BlackBox);
  }

  /**
   * The transcript while a send is streaming: the one the send started from,
   * then, once a delta has arrived, one in-flight assistant turn holding the
   * accumulated text.
   */
  function StreamedTranscript(base: seq<Msg>, ds: seq<string>, soFar: string, m: ModuleId): seq<Msg>
  {
    if ds == [] then base else base + [AssistantTurn(soFar, m)]
  }

  /**
   * The transcript a send keeps while streaming is the deltas folded in by
   * `upsertAssistant`, one after the other, over the transcript the send
   * started from.
   */
  lemma {:induction false} StreamedIsFolded(base: seq<Msg>, ds: seq<string>, m: ModuleId)
    requires !EndsInFlight(base)
    ensures StreamedTranscript(base, ds, Concat(ds), m) == Reconcile(base, ds, m)
  {
    if ds != [] {
      ChunkingInvariance(base, ds, m);
    }
  }

  /**
   * The studio page's chat state. `assistantSoFar`, `sendModule`,
   * `sendProject` and `sendUser` are the values the callbacks of the current
   * send close over; `deltas` and `streamBase` record, for the proof, the
   * deltas received so far and the transcript they are folded into.
   */
  class StudioSession {
    var messages: seq<Msg>
    var input: string
    var selected: ModuleId
    var isLoading: bool
    const user: Option<string>
    const projectId: Option<string>
    var effects: seq<Effect>

    var assistantSoFar: string
    var sendModule: ModuleId
    var sendProject: string
    var sendUser: string
    ghost var deltas: seq<string>
    ghost var streamBase: seq<Msg>

    /**
     * The accumulator is the concatenation of the deltas received; while a
     * send is in progress the transcript is the one the send started from,
     * ending in its user turn, followed by one in-flight assistant turn
     * holding the accumulator once a delta has arrived. By
     * ChunkingInvariance this is the deltas folded in by `upsertAssistant`.
     */
    ghost predicate Valid()
      reads this
    {
      && assistantSoFar == Concat(deltas)
      && (isLoading ==>
            && |streamBase| > 0 && streamBase[|streamBase| - 1].role == User
            && messages == StreamedTranscript(streamBase, deltas, assistantSoFar, sendModule))
    }

    /** The page once a project's turns have been loaded. */
    constructor (user: Option<string>, projectId: Option<string>, loaded: seq<Msg>)
      ensures Valid()
      ensures this.user == user && this.projectId == projectId
      ensures messages == loaded && input == "" && selected == Orchestrator
      ensures !isLoading && effects == []
    {
      this.user := user;
      this.projectId := projectId;
      messages := loaded;
      input := "";
      selected := Orchestrator;
      isLoading := false;
      effects := [];
      assistantSoFar := "";
      sendModule := Orchestrator;
      sendProject := "";
      sendUser := "";
      deltas := [];
      streamBase := [];
    }

    /** The text box's `onChange`. */
    method SetInput(text: string)
      requires Valid()
      modifies this`input
      ensures Valid() && input == text
    {
      input := text;
    }

    /** The module selector's `onSelect`; a send in progress keeps the module it captured. */
    method SelectModule(m: ModuleId)
      requires Valid()
      modifies this`selected
      ensures Valid() && selected == m
    {
      selected := m;
    }

    /**
     * `sendMessage` up to the call of the stream consumer. When the guard
     * passes: the trimmed text is appended as a user turn, the input is
     * cleared, `isLoading` is set, the user row is inserted and the messages
     * for the relay are returned; they are built from the transcript as it
     * was before the user turn was appended. Otherwise nothing changes.
     */
    method SendMessage() returns (outgoing: Option<seq<ChatRelay.WireMessage>>)
      requires Valid()
      modifies this
      ensures Valid()
      ensures outgoing.Some? <==> CanSend(old(input), old(isLoading), user, projectId)
      ensures outgoing.None? ==> unchanged(this)
      ensures outgoing.Some? ==>
                var text := Trim(old(input));
                && messages == old(messages) + [UserTurn(text)]
                && input == "" && isLoading && selected == old(selected)
                && effects == old(effects)
                   + [Insert(Row(projectId.value, user.value, User, text, StoredModule(old(selected))))]
                && outgoing.value == Outgoing(old(messages), text)
                && assistantSoFar == "" && sendModule == old(selected)
                && sendProject == projectId.value && sendUser == user.value
                && deltas == [] && streamBase == messages
    {
      if !CanSend(input, isLoading, user, projectId) {
        return None;
      }
      var text := Trim(input);
      var snapshot := messages;
      StartSend(text, projectId.value, user.value);
      outgoing := Some(Outgoing(snapshot, text));
    }

    /**
     * The optimistic part of a send that passed the guard: the user turn is
     * appended, the input cleared, loading set, the user row inserted, and
     * the callbacks' accumulator started empty with the selected module.
     */
    method StartSend(text: string, project: string, userId: string)
      requires Valid() && !isLoading
      modifies this`messages, this`input, this`isLoading, this`effects, this`assistantSoFar,
               this`sendModule, this`sendProject, this`sendUser, this`deltas, this`streamBase
      ensures Valid()
      ensures messages == old(messages) + [UserTurn(text)]
      ensures input == "" && isLoading
      ensures effects == old(effects) + [Insert(Row(project, userId, User, text, StoredModule(selected)))]
      ensures assistantSoFar == "" && sendModule == selected
      ensures sendProject == project && sendUser == userId
      ensures deltas == [] && streamBase == messages
    {
      messages := messages + [UserTurn(text)];
      input := "";
      isLoading := true;
      sendProject, sendUser, sendModule := project, userId, selected;
      effects := effects + [Insert(Row(project, userId, User, text, StoredModule(selected)))];
      assistantSoFar := "";
      deltas := [];
      streamBase := messages;
    }

    /**
     * `upsertAssistant(chunk)`: the accumulator grows by the chunk and the
     * transcript is the one the send started from plus one in-flight
     * assistant turn holding everything received so far.
     */
    method OnDelta(chunk: string)
      requires Valid() && isLoading
      modifies this`assistantSoFar, this`messages, this`deltas
      ensures Valid()
      ensures assistantSoFar == old(assistantSoFar) + chunk && deltas == old(deltas) + [chunk]
      ensures messages == Upsert(old(messages), assistantSoFar, sendModule)
      ensures messages == streamBase + [AssistantTurn(assistantSoFar, sendModule)]
    {
      ConcatSnoc(deltas, chunk);
      deltas := deltas + [chunk];
      assistantSoFar := assistantSoFar + chunk;
      var prev := messages;
      messages := Upsert(messages, assistantSoFar, sendModule);
      if old(deltas) == [] {
        assert !EndsInFlight(prev);
      } else {
        assert EndsInFlight(prev) && prev[..|prev| - 1] == streamBase;
      }
    }

    /**
     * `onDone`: loading stops, the assistant row is inserted when the
     * accumulated text is non-empty, and the project is touched. The
     * transcript itself is left alone: no turn receives an id.
     */
    method OnDone()
      requires Valid() && isLoading
      modifies this`isLoading, this`effects
      ensures Valid() && !isLoading
      ensures effects == old(effects) + CompletionEffects(assistantSoFar, sendProject, sendUser, sendModule)
    {
      isLoading := false;
      if assistantSoFar != "" {
        effects := effects + [Insert(Row(sendProject, sendUser, Assistant, assistantSoFar, StoredModule(sendModule)))];
      }
      effects := effects + [TouchProject(sendProject)];
    }

    /** The `catch` of `sendMessage`: loading stops and nothing is written. */
    method OnError()
      requires Valid() && isLoading
      modifies this`isLoading
      ensures Valid() && !isLoading
    {
      isLoading := false;
    }
  }
}
